=== FILE: README.md ===
# Traefik certificate explorer: store decoding and certificate lookup

This project models the core of the Traefik certificate explorer in Dafny. The
explorer reads Traefik's ACME store (`acme.json`), validates it, and serves each
certificate's PEM chain and private key over HTTP. The model starts from an
already parsed JSON value and covers four pieces.

- **Validator** (`Decoders`). The declared shape of the store is:
  - a dictionary from resolver name to `{ Account, Certificates[] }`;
  - an account with `Email`, `Registration.body.status`, `Registration.body.contact[]`,
    `Registration.uri`, `PrivateKey` and `KeyType`;
  - a certificate with `domain.main`, an optional `domain.sans[]`, and `certificate`, `key`
    and `Store`.

  Each decoder has a declarative partner predicate (`IsAccount`, `IsCertificate`,
  `IsStore`, …). Its contract says it succeeds exactly when the predicate holds.
  On success, the decoded value agrees field by field with the JSON
  (`AccountAgrees`, `CertificateAgrees`, `ResolversAgree`). `DecoderProperties`
  adds an encoder for every entity, a decode-after-encode round trip for whole
  stores, and the all-or-nothing rejection facts.
- **Loader** (`Loader`). A read or parse failure is re-raised with a fixed
  message prefix. A parsed document is validated. These are distinct error kinds.
- **Accessors** (`Accessors`):
  - the first resolver's certificate list, failing on a store without resolvers;
  - first-match lookup over that list;
  - the two PEM extractors, which decode base64 then UTF-8. Base64 follows section 4
    of RFC 4648 (`Base64`); UTF-8 is strict (`Utf8`). Both are proved to be
    bijections with their encoders.
- **Web front end** (`App`):
  - the classification done by the `/attachment/:domain/:type.:format` route: the
    lower-casing whitelist, the exact domain match, the extractor switch, the
    empty-content assertion, and the inline/attachment split;
  - the rows of the index page.

JSON objects are ordered sequences of key/value pairs (`Json.Json`), so "the
first resolver" means the first property in document order. A property lookup
returns the first binding of a key.

## Model

| member | source | states |
|---|---|---|
| Decoders.DecodeRegistrationBody | src/store/decoders.ts:14-17 | accepts exactly an object with a string `status` and a string array `contact`, and copies both |
| Decoders.DecodeRegistration | src/store/decoders.ts:13-19 | accepts exactly an object with a valid `body` and a string `uri` |
| Decoders.DecodeAccount | src/store/decoders.ts:11-22 | accepts exactly an object with string `Email`, `PrivateKey`, `KeyType` and a valid `Registration`; the account agrees with every one of those JSON paths |
| Decoders.DecodeStringArray | src/store/decoders.ts:16 | accepts exactly an array whose every element is a string, and returns those strings in order |
| Decoders.DecodeSans | src/store/decoders.ts:27 | an absent `sans` gives `None`; a present one must be a string array, which is returned in order |
| Decoders.DecodeDomain | src/store/decoders.ts:25-28 | accepts exactly an object with a string `main` and an absent-or-string-array `sans` |
| Decoders.DecodeCertificate | src/store/decoders.ts:24-32 | accepts a certificate entry iff `domain` is valid and `certificate`, `key` and `Store` are strings; `main`, `sans`, `certificate`, `key` and `Store` pass through unchanged |
| Decoders.DecodeCertificateArray | src/store/decoders.ts:36 | accepts exactly an array of valid certificate entries; the result has the same length and order, entry by entry in agreement |
| Decoders.DecodeResolver | src/store/decoders.ts:34-37 | accepts exactly an object with a valid `Account` and a valid `Certificates` array, agreeing with both |
| Decoders.DecodeResolvers | src/store/decoders.ts:39-41 | accepts a list of properties iff every value is a valid resolver; the result keeps every name and order |
| Decoders.DecodeStore | src/store/decoders.ts:53-55 | succeeds iff the value is an object all of whose property values are valid resolvers (the reference predicate `IsStore`); on success every resolver agrees with its JSON |
| DecoderProperties.AccountRoundTrip | src/store/decoders.ts:11-22 | every typed account, written as JSON, is accepted and decodes to itself |
| DecoderProperties.DomainRoundTrip | src/store/decoders.ts:25-28 | every typed domain, with or without `sans`, decodes back to itself |
| DecoderProperties.CertificateRoundTrip | src/store/decoders.ts:24-32 | every typed certificate, written as JSON, is accepted and decodes to itself |
| DecoderProperties.CertificatesRoundTrip | src/store/decoders.ts:36 | every list of certificates decodes back to itself |
| DecoderProperties.ResolverRoundTrip | src/store/decoders.ts:34-37 | every typed resolver decodes back to itself |
| DecoderProperties.DecodeEncodeStore | src/store/decoders.ts:34-41 | every typed store, written as JSON, passes validation and decodes back to exactly that store |
| DecoderProperties.EmptyDictAccepted | src/store/decoders.ts:39-41 | an empty object is a valid store with no resolvers |
| DecoderProperties.BadCertificateRejectsStore | src/store/decoders.ts:36-41 | one malformed certificate entry in any resolver rejects the whole document |
| DecoderProperties.NonStringSanRejectsStore | src/store/decoders.ts:27 | one non-string element of a present `sans` rejects the whole document |
| DecoderProperties.StoreTagNotRestricted | src/store/decoders.ts:31 | an entry whose `Store` is not "default" is accepted: only the string type is checked |
| Loader.LoadStore | src/store/index.ts:8-17 | a read/parse failure becomes the prefixed message; a parsed value loads iff it is a valid store, otherwise the error is a validation error; a loaded store is the decoder's result |
| Accessors.GetCertificates | src/store/index.ts:19-22 | fails iff the store has no resolver; otherwise returns exactly the first resolver's certificate list, unchanged |
| Accessors.FindIndexFrom | src/store/index.ts:31 | the index returned is the first match at or after the start; `None` means no match from there on |
| Accessors.FindCertificate | src/store/index.ts:24-31 | fails iff the store has no resolver; `None` means no certificate of the list satisfies the predicate; a result is the element at the first matching position |
| Accessors.FindReturnsFirstMatch | src/store/index.ts:24-31 | whenever position i is the first match, the lookup returns the element at i |
| Accessors.FindByDomain | src/store.ts:41-48 | with the domain predicate, a found entry has that `domain.main` and no earlier entry has it; a miss means no entry has it |
| Accessors.FindUniqueDomain | src/index.ts:59 | when exactly one entry has the primary domain, the lookup returns that entry |
| Accessors.Base64Decode | src/store/index.ts:33-34 | any text it returns is the one whose UTF-8 bytes, base64-encoded, give back the input |
| Accessors.ExtractFullChainPem | src/store.ts:53-54 | any text returned is the one whose UTF-8 bytes, base64-encoded, are the `certificate` field |
| Accessors.ExtractPrivateKeyPem | src/store.ts:56-57 | any text returned is the one whose UTF-8 bytes, base64-encoded, are the `key` field |
| Accessors.Base64DecodeRoundTrip | src/store/index.ts:33-34 | every text, encoded as UTF-8 then base64, decodes back to itself |
| Accessors.AsciiRoundTrip | src/store.ts:50-51 | for ASCII text such as PEM, decoding the base64 of the character codes gives back the text |
| Accessors.PemDashesExample | src/store/index.ts:33-34 | the base64 text "LS0tLS0=" decodes to "-----", the hyphens that open every PEM boundary line |
| Accessors.ExtractorsRoundTrip | src/store.ts:53-57 | for fields holding the encoding of a text, each extractor returns that text, for this certificate and for every certificate with the same value in that field |
| Accessors.ExtractorsReadOneField | src/store.ts:53-57 | for any two certificates, whatever their fields hold, the chain extractor agrees when `certificate` agrees and the key extractor when `key` agrees |
| Accessors.DecodedStoreListing | src/store/index.ts:16-22 | after validation, the listing fails iff the document has no property; otherwise it lists the first property's `Certificates` array, same length and order |
| Base64.Encode | src/store/index.ts:34 | the encoding has four characters per started group of three bytes |
| Base64.DecodeEncode | src/store/index.ts:34 | decoding the encoding of any byte sequence gives it back |
| Base64.EncodeDecode | src/store/index.ts:34 | any accepted text is the encoding of what it decodes to (canonical padding only) |
| Base64.DecodeIffEncode | src/store/index.ts:34 | a text decodes to b iff it is the encoding of b |
| Base64.AlphabetBijection | src/store/index.ts:34 | the 64 symbols and the values 0..63 correspond one to one |
| Base64.RfcTestVectors | src/store/index.ts:34 | the encodings of "", "f", "fo", "foo", "foob", "fooba" and "foobar" are the test vectors of section 10 of RFC 4648 |
| Utf8.DecodeEncode | src/store/index.ts:34 | decoding the UTF-8 encoding of any text gives it back |
| Utf8.EncodeDecode | src/store/index.ts:34 | any accepted byte sequence is the encoding of the text it decodes to |
| Utf8.DecodeIffEncode | src/store/index.ts:34 | bytes decode to a text iff they are its encoding |
| Utf8.AsciiEncoding | src/store/index.ts:34 | ASCII text encodes to its character codes, one byte each |
| App.AttachmentResponse | src/index.ts:49-80 | 400 iff the lowered type/format is outside the whitelist, whatever the store; for an allowed request, failure `StoreUnavailable` iff the store could not be loaded and `EmptyStore` iff it has no resolver; 404 iff no entry has the domain; an undecodable field fails with `BadEncoding`; inline only for `txt`, attachment named `<type>.<format>` only for `pem`, both with the non-empty text extracted from the first matching entry; empty text is a failure |
| App.TypeAndFormatIgnoreCase | src/index.ts:50-56 | any two requests whose type and format lower to the same words get the same response |
| App.CaseVariantLowers | src/index.ts:50-54 | every capitalisation of a whitelisted word (ASCII capitals, KELVIN SIGN for 'K') lowers to that word, so it passes the whitelist as that word |
| App.ServesFirstMatch | src/index.ts:58-79 | conversely, an allowed request for a domain whose first entry yields non-empty text is answered with that text, inline or as an attachment |
| App.Extract | src/index.ts:65-72 | "fullchain" yields text whose encoding is the `certificate` field; any other (after the whitelist, "key") yields text whose encoding is the `key` field |
| App.DownloadRoundTrip | src/index.ts:58-79 | for either whitelisted type, the PEM text stored in the field that type selects is served unchanged as `<type>.pem`, and inline for `txt` |
| App.ChainDownloadRoundTrip | src/index.ts:50-79 | a PEM chain stored as base64 of UTF-8 is served unchanged for every request whose type lowers to `fullchain` and whose format lowers to a whitelisted one: inline for `txt`, as `fullchain.pem` for `pem` |
| App.IndexData | src/index.ts:14-37 | fails iff the store has no resolver; otherwise the title is "Index of /" and there is one row per certificate in store order, with `id` and `domain` equal to `domain.main`, `sans` defaulting to empty, and the two download links |
| App.IndexLinksResolve | src/index.ts:22-31 | both links of every row are `/attachment/<main>/fullchain.pem` and `/attachment/<main>/key.pem` and pass the whitelist; the route, called with the row's domain and fullchain or key with pem, never answers 400 or 404 |
| Json.LookupFindsFirst | src/store/decoders.ts:11-22 | a property read finds nothing iff the key is absent, and otherwise the value of its first occurrence |

## Left out

- Reading the file, `JSON.parse`, environment variables and `app.listen` are I/O. The model starts from the outcome of parsing: a `Json` value, or the text of the error.
- Express routing, `res.format` content negotiation, pug rendering, static files and HTTP status writing are plumbing. The route is modelled as a function from the request parameters and the load outcome to a `Response`. When the handler throws and sends nothing, the model returns the `Failed` response, which names the reason.
- URL decoding and the splitting of `:type.:format` by the router are not modelled. The route function receives the three parameters already split.
- App.IndexLinksResolve: the index puts `domain.main` into the link without URL-encoding it, so a link does not always come back to the route as the same domain. An empty `main`, or one containing '/', '?' or '#', never reaches the route with that domain; a '%' not followed by two hex digits makes the router answer 400. The lemma states what the route answers for the row's domain, not what following the link does.
- JSON strings are modelled as sequences of Unicode scalar values, while JavaScript strings are UTF-16. A store whose JSON escapes a lone surrogate (`"\ud800"`) parses in JavaScript but has no representation here. No decision of the modelled code depends on it.
- The internals of the `decoders` library are not modelled, including its error messages and its handling of unknown keys. Extra keys are ignored and errors are the opaque `DecodeError`.
- Duplicate JSON keys are not modelled: `JSON.parse` keeps the last binding, while lookup here takes the first. Parsed objects have distinct keys, so the two agree on them.
- `Object.values` lists integer-like keys first, in numeric order. The model keeps document order.
- Node's `Buffer` base64 decoding is lenient: it skips non-alphabet characters, accepts the URL-safe alphabet and ignores bad padding. `toString("utf-8")` replaces invalid sequences with U+FFFD. The model decodes strictly instead, by section 4 of RFC 4648 and strict UTF-8, and rejects such inputs as `NotBase64` / `NotUtf8`. Where the model answers `BadEncoding`, the program serves the leniently decoded text, or fails `assert(content)` when that text is empty.
- Accessors.Base64Decode: on inputs Node decodes leniently, the contract promises failure where Node returns some text.
- `String.prototype.toLowerCase` is modelled only for ASCII capitals and KELVIN SIGN (U+212A). Every other character keeps its case. Every other non-ASCII character lowers to non-ASCII text, so the whitelist decision is the same.
- `src/store.ts` performs no validation: its `loadStore` only casts the parsed value. The route here takes an already typed `Store`, the shape its type annotation promises. It does not model what the route does with a mistyped document.
- The `index` and `array` arguments that `Array.prototype.find` passes to its predicate are not modelled. The predicate takes the certificate only, as every caller uses it.
- The account is validated but otherwise unused: no lookup or extraction path reads it.
- JSON numbers are kept as their literal text. No part of the store shape accepts a number.
- X.509 parsing and certificate metadata appear in none of these files.

=== FILE: accessors.dfy ===
/**
  Reading a store: the certificate list of the first resolver, first-match
  lookup over it, and the two PEM extractors. The validated store module and
  its unvalidated twin define these identically; they are modelled once here.
*/
module Accessors {
  import opened Wrappers
  import opened Octets
  import opened Json
  import opened StoreModel
  import opened Decoders
  import Base64
  import Utf8

  /** `Object.values(store)[0]` is undefined, so reading its `Certificates` throws. */
  datatype AccessError = NoResolver

  /** The certificate list of the first resolver in property order; the other resolvers are never read. */
  function GetCertificates(s: Store): (r: Result<seq<Certificate>, AccessError>)
    ensures r.Failure? <==> |s.resolvers| == 0
    ensures r.Success? ==> r.value == s.resolvers[0].1.certificates
  {
    if |s.resolvers| == 0 then Failure(NoResolver) else Success(s.resolvers[0].1.certificates)
  }

  /** Index `i` holds the first element of `cs` that satisfies `p`. */
  ghost predicate IsFirstMatch(cs: seq<Certificate>, p: Certificate -> bool, i: int) {
    0 <= i < |cs| && p(cs[i]) && forall k :: 0 <= k < i ==> !p(cs[k])
  }

  /** `Array.prototype.find`'s scan, from position `from` on: the index of the first match. */
  function FindIndexFrom(cs: seq<Certificate>, p: Certificate -> bool, from: nat): (r: Option<nat>)
    requires from <= |cs|
    ensures r.Some? ==> from <= r.value < |cs| && p(cs[r.value]) && forall k :: from <= k < r.value ==> !p(cs[k])
    ensures r.None? ==> forall k :: from <= k < |cs| ==> !p(cs[k])
    decreases |cs| - from
  {
    if from == |cs| then None
    else if p(cs[from]) then Some(from)
    else FindIndexFrom(cs, p, from + 1)
  }

  /**
    `getCertificates(store).find(predicate)`: the first certificate satisfying
    the predicate, `None` when none does, and the accessor's failure on a store
    without resolvers.
  */
  function FindCertificate(s: Store, p: Certificate -> bool): (r: Result<Option<Certificate>, AccessError>)
    ensures r.Failure? <==> |s.resolvers| == 0
    ensures r.Success? && r.value.None? ==>
              forall c :: c in s.resolvers[0].1.certificates ==> !p(c)
    ensures r.Success? && r.value.Some? ==>
              exists i :: IsFirstMatch(s.resolvers[0].1.certificates, p, i)
                          && s.resolvers[0].1.certificates[i] == r.value.value
  {
    var cs :- GetCertificates(s);
    match FindIndexFrom(cs, p, 0)
    case None => Success(None)
    case Some(i) =>
      assert IsFirstMatch(cs, p, i);
      Success(Some(cs[i]))
  }

  /** The lookup predicate of the attachment route: an exact, case-sensitive match on `domain.main`. */
  function MainIs(domain: string): Certificate -> bool {
    (c: Certificate) => c.domain.main == domain
  }

  /** Extraction failures: the text is not strict base64, or its bytes are not UTF-8. */
  datatype EncodingError = NotBase64 | NotUtf8

  /** Base64 text to the UTF-8 text it encodes; accepted inputs are exactly the canonical encodings. */
  function Base64Decode(input: string): (r: Result<string, EncodingError>)
    ensures r.Success? ==> input == Base64.Encode(Utf8.Encode(r.value))
  {
    match Base64.Decode(input)
    case None => Failure(NotBase64)
    case Some(bytes) =>
      Base64.EncodeDecode(input, bytes);
      match Utf8.Decode(bytes)
      case None => Failure(NotUtf8)
      case Some(text) =>
        Utf8.EncodeDecode(bytes, text);
        Success(text)
  }

  /** The PEM text of the certificate chain. */
  function ExtractFullChainPem(c: Certificate): (r: Result<string, EncodingError>)
    ensures r.Success? ==> c.certificate == Base64.Encode(Utf8.Encode(r.value))
  {
    Base64Decode(c.certificate)
  }

  /** The PEM text of the private key. */
  function ExtractPrivateKeyPem(c: Certificate): (r: Result<string, EncodingError>)
    ensures r.Success? ==> c.key == Base64.Encode(Utf8.Encode(r.value))
  {
    Base64Decode(c.key)
  }

  // Properties.

  /** Any text, encoded as UTF-8 then base64, decodes back to itself. */
  lemma Base64DecodeRoundTrip(text: string)
    ensures Base64Decode(Base64.Encode(Utf8.Encode(text))) == Success(text)
  {
    Base64.DecodeEncode(Utf8.Encode(text));
    Utf8.DecodeEncode(text);
  }

  /** For ASCII text, such as PEM, the base64 form is simply the encoding of the character codes. */
  lemma AsciiRoundTrip(text: string, codes: seq<Byte>)
    requires |codes| == |text|
    requires forall i :: 0 <= i < |text| ==> text[i] as int < 0x80 && codes[i] == text[i] as int
    ensures Base64Decode(Base64.Encode(codes)) == Success(text)
  {
    Utf8.AsciiEncoding(text);
    assert Utf8.Encode(text) == codes;
    Base64DecodeRoundTrip(text);
  }

  /** The hyphens that open a PEM boundary line, stored as base64, come back as that text. */
  lemma PemDashesExample()
    ensures Base64Decode("LS0tLS0=") == Success("-----")
  {
    var codes: seq<Byte> := [45, 45, 45, 45, 45];
    AsciiRoundTrip("-----", codes);
    Base64.PemDashesEncoding();
  }

  /**
    When each field holds the encoding of a text, each extractor returns that
    text, here and for every certificate with the same value in its field.
  */
  lemma ExtractorsRoundTrip(c: Certificate, chain: string, key: string)
    requires c.certificate == Base64.Encode(Utf8.Encode(chain))
    requires c.key == Base64.Encode(Utf8.Encode(key))
    ensures ExtractFullChainPem(c) == Success(chain)
    ensures ExtractPrivateKeyPem(c) == Success(key)
    ensures forall d: Certificate :: d.certificate == c.certificate ==> ExtractFullChainPem(d) == Success(chain)
    ensures forall d: Certificate :: d.key == c.key ==> ExtractPrivateKeyPem(d) == Success(key)
  {
    Base64DecodeRoundTrip(chain);
    Base64DecodeRoundTrip(key);
  }

  /**
    For every pair of certificates, whatever their fields hold: the chain
    extractor reads `certificate` only and the key extractor `key` only.
  */
  lemma ExtractorsReadOneField(c: Certificate, d: Certificate)
    ensures c.certificate == d.certificate ==> ExtractFullChainPem(c) == ExtractFullChainPem(d)
    ensures c.key == d.key ==> ExtractPrivateKeyPem(c) == ExtractPrivateKeyPem(d)
  {
  }

  /** With the domain predicate, a found entry has that primary domain and no earlier entry has it. */
  lemma FindByDomain(s: Store, domain: string)
    requires |s.resolvers| > 0
    ensures var cs := s.resolvers[0].1.certificates;
            match FindCertificate(s, MainIs(domain))
            case Failure(_) => false
            case Success(None) => forall c :: c in cs ==> c.domain.main != domain
            case Success(Some(c)) =>
              c.domain.main == domain
              && exists i :: 0 <= i < |cs| && cs[i] == c && forall k :: 0 <= k < i ==> cs[k].domain.main != domain
  {
    var cs := s.resolvers[0].1.certificates;
    var r := FindCertificate(s, MainIs(domain));
    if r.value.Some? {
      var i :| IsFirstMatch(cs, MainIs(domain), i) && cs[i] == r.value.value;
      assert forall k :: 0 <= k < i ==> cs[k].domain.main != domain by {
        forall k | 0 <= k < i ensures cs[k].domain.main != domain {
          assert !MainIs(domain)(cs[k]);
        }
      }
    }
  }

  /** The first match is unique, so the lookup returns the entry at the first matching position. */
  lemma FindReturnsFirstMatch(s: Store, p: Certificate -> bool, i: nat)
    requires |s.resolvers| > 0 && IsFirstMatch(s.resolvers[0].1.certificates, p, i)
    ensures FindCertificate(s, p) == Success(Some(s.resolvers[0].1.certificates[i]))
  {
    var cs := s.resolvers[0].1.certificates;
    var r := FindCertificate(s, p);
    var j :| IsFirstMatch(cs, p, j) && cs[j] == r.value.value;
    assert j == i;
  }

  /** When exactly one entry has the primary domain, the lookup returns that entry. */
  lemma FindUniqueDomain(s: Store, domain: string, i: nat)
    requires |s.resolvers| > 0
    requires var cs := s.resolvers[0].1.certificates;
             i < |cs| && cs[i].domain.main == domain
             && forall k :: 0 <= k < |cs| && k != i ==> cs[k].domain.main != domain
    ensures FindCertificate(s, MainIs(domain)) == Success(Some(s.resolvers[0].1.certificates[i]))
  {
    var cs := s.resolvers[0].1.certificates;
    FindByDomain(s, domain);
    assert MainIs(domain)(cs[i]);
  }

  /**
    Decoding then listing: a validated store with at least one resolver lists
    the entries of the first property's `Certificates` array, as many and in
    the same order; a validated empty object lists nothing but fails.
  */
  lemma DecodedStoreListing(j: Json)
    requires DecodeStore(j).Success?
    ensures GetCertificates(DecodeStore(j).value).Failure? <==> |j.fields| == 0
    ensures |j.fields| > 0 ==>
              && Get(j.fields[0].1, "Certificates").Some?
              && Get(j.fields[0].1, "Certificates").value.JArray?
              && CertificatesAgree(GetCertificates(DecodeStore(j).value).value,
                                   Get(j.fields[0].1, "Certificates").value.items)
  {
    var s := DecodeStore(j).value;
    if |j.fields| > 0 {
      assert ResolverAgrees(s.resolvers[0].1, j.fields[0].1);
    }
  }
}

=== FILE: app.dfy ===
/**
  The pure decisions of the web front end: the attachment route
  `/attachment/:domain/:type.:format` and the rows of the index page.
  Routing, content negotiation and rendering are outside the model.
*/
module App {
  import opened Wrappers
  import opened StoreModel
  import opened Accessors
  import Base64
  import Utf8

  const AllowedTypes: seq<string> := ["fullchain", "key"]
  const AllowedFormats: seq<string> := ["pem", "txt"]

  /**
    One character of `String.prototype.toLowerCase`, as far as the route can
    tell: ASCII capitals, and KELVIN SIGN (U+212A), the one non-ASCII character
    whose lower case is an ASCII letter ('k'). Every other non-ASCII character
    lowers to non-ASCII text in JavaScript and is kept as is here; either way the result
    is not a whitelisted word, so the route decides the same.
  */
  function LowerChar(c: char): char {
    if 'A' <= c <= 'Z' then (c as int + 32) as char
    else if c == '\U{212A}' then 'k'
    else c
  }

  function Lower(s: string): string {
    seq(|s|, i requires 0 <= i < |s| => LowerChar(s[i]))
  }

  /** `ALLOWED_TYPES.includes(type) && ALLOWED_FORMATS.includes(format)` on the lowered values. */
  predicate Allowed(t: string, f: string) {
    t in AllowedTypes && f in AllowedFormats
  }

  /** The store as the route obtains it: the parsed document, or the text of the read/parse error. */
  type Loaded = Result<Store, string>

  /**
    Why the route answers nothing. Three of these are throws of the handler,
    which then sends nothing. `BadEncoding` is the model's own: its strict
    decoding rejects a field where Node's lenient decoding returns some text,
    which the route then serves, or refuses at `assert(content)` when it is empty.
  */
  datatype HandlerError =
    | StoreUnavailable      // reading or parsing the store file failed
    | EmptyStore            // the store has no resolver
    | BadEncoding(error: EncodingError)
    | EmptyContent          // `assert(content)` on an empty string

  datatype Response =
    | BadRequest                                 // 400
    | NotFound                                   // 404
    | Inline(text: string)                       // sent as text
    | Attachment(filename: string, body: string) // sent as a download named `filename`
    | Failed(error: HandlerError)

  /**
    The extractor the `switch (type)` selects: "fullchain" reads the chain;
    after the whitelist the only other case is "key", which reads the key.
  */
  function Extract(t: string, c: Certificate): (r: Result<string, EncodingError>)
    ensures r.Success? && t == "fullchain" ==> c.certificate == Base64.Encode(Utf8.Encode(r.value))
    ensures r.Success? && t != "fullchain" ==> c.key == Base64.Encode(Utf8.Encode(r.value))
  {
    if t == "fullchain" then ExtractFullChainPem(c) else ExtractPrivateKeyPem(c)
  }

  /** `text` is what extracting `t` from the first entry whose primary domain is `domain` yields. */
  ghost predicate Serves(loaded: Loaded, domain: string, t: string, text: Result<string, EncodingError>) {
    && loaded.Success?
    && |loaded.value.resolvers| > 0
    && exists i :: IsFirstMatch(loaded.value.resolvers[0].1.certificates, MainIs(domain), i)
                   && Extract(t, loaded.value.resolvers[0].1.certificates[i]) == text
  }

  /** The attachment route. */
  function AttachmentResponse(domain: string, typ: string, format: string, loaded: Loaded): (r: Response)
    ensures r == BadRequest <==> !Allowed(Lower(typ), Lower(format))
    ensures r == NotFound <==>
              && Allowed(Lower(typ), Lower(format))
              && loaded.Success? && |loaded.value.resolvers| > 0
              && forall c :: c in loaded.value.resolvers[0].1.certificates ==> c.domain.main != domain
    ensures r.Inline? ==>
              Lower(format) == "txt" && r.text != "" && Serves(loaded, domain, Lower(typ), Success(r.text))
    ensures r.Attachment? ==>
              && Lower(format) == "pem" && r.filename == Lower(typ) + "." + Lower(format)
              && r.body != "" && Serves(loaded, domain, Lower(typ), Success(r.body))
    ensures r == Failed(StoreUnavailable) <==> Allowed(Lower(typ), Lower(format)) && loaded.Failure?
    ensures r == Failed(EmptyStore) <==>
              Allowed(Lower(typ), Lower(format)) && loaded.Success? && |loaded.value.resolvers| == 0
    ensures r.Failed? && r.error.BadEncoding? ==> Serves(loaded, domain, Lower(typ), Failure(r.error.error))
    ensures r == Failed(EmptyContent) ==> Serves(loaded, domain, Lower(typ), Success(""))
  {
    var t := Lower(typ);
    var f := Lower(format);
    if !Allowed(t, f) then BadRequest
    else
      match loaded
      case Failure(_) => Failed(StoreUnavailable)
      case Success(store) =>
        match FindCertificate(store, MainIs(domain))
        case Failure(_) => Failed(EmptyStore)
        case Success(None) => NotFound
        case Success(Some(cert)) =>
          match Extract(t, cert)
          case Failure(e) => Failed(BadEncoding(e))
          case Success(content) =>
            if content == "" then Failed(EmptyContent)
            else if f == "txt" then Inline(content)
            else Attachment(t + "." + f, content)
  }

  /** Text without capitals (and without KELVIN SIGN) is its own lower case. */
  lemma LowerFixesLowercase(s: string)
    requires forall i :: 0 <= i < |s| ==> !('A' <= s[i] <= 'Z') && s[i] != '\U{212A}'
    ensures Lower(s) == s
  {
  }

  lemma LowerWords()
    ensures Lower("fullchain") == "fullchain" && Lower("key") == "key"
    ensures Lower("pem") == "pem" && Lower("txt") == "txt"
    ensures Lower("FullChain") == "fullchain" && Lower("TXT") == "txt"
    ensures Lower("fullchain") + "." + Lower("pem") == "fullchain.pem"
  {
    LowerFixesLowercase("fullchain");
    LowerFixesLowercase("key");
    LowerFixesLowercase("pem");
    LowerFixesLowercase("txt");
  }

  /**
    `type` and `format` are compared after lowering: two requests whose type
    and format lower to the same words get the same response.
  */
  lemma TypeAndFormatIgnoreCase(domain: string, t1: string, f1: string, t2: string, f2: string, loaded: Loaded)
    requires Lower(t1) == Lower(t2) && Lower(f1) == Lower(f2)
    ensures AttachmentResponse(domain, t1, f1, loaded) == AttachmentResponse(domain, t2, f2, loaded)
  {
  }

  /** `c` is a capital form of the lower-case letter `l`: its ASCII capital, or KELVIN SIGN for 'k'. */
  predicate CapitalOf(c: char, l: char) {
    ('a' <= l <= 'z' && c as int == l as int - 32) || (l == 'k' && c == '\U{212A}')
  }

  /** Every whitelisted word is spelled in lower-case ASCII letters. */
  lemma WhitelistIsLowercase(w: string)
    requires w in AllowedTypes || w in AllowedFormats
    ensures forall i :: 0 <= i < |w| ==> 'a' <= w[i] <= 'z'
  {
  }

  /** Any capitalisation of a whitelisted word, KELVIN SIGN for 'K' included, lowers to that word. */
  lemma CaseVariantLowers(s: string, w: string)
    requires w in AllowedTypes || w in AllowedFormats
    requires |s| == |w| && forall i :: 0 <= i < |s| ==> s[i] == w[i] || CapitalOf(s[i], w[i])
    ensures Lower(s) == w
  {
    WhitelistIsLowercase(w);
    forall i | 0 <= i < |s|
      ensures Lower(s)[i] == w[i]
    {
    }
  }

  /**
    The converse of the route's contract: a whitelisted request for a domain
    whose first entry yields non-empty text is answered with that text.
  */
  lemma ServesFirstMatch(s: Store, domain: string, typ: string, format: string, i: nat, text: string)
    requires Allowed(Lower(typ), Lower(format))
    requires |s.resolvers| > 0 && IsFirstMatch(s.resolvers[0].1.certificates, MainIs(domain), i)
    requires Extract(Lower(typ), s.resolvers[0].1.certificates[i]) == Success(text) && text != ""
    ensures AttachmentResponse(domain, typ, format, Success(s)) ==
            if Lower(format) == "txt" then Inline(text) else Attachment(Lower(typ) + "." + Lower(format), text)
  {
    FindReturnsFirstMatch(s, MainIs(domain), i);
  }

  /**
    End to end: when the first entry for `domain` stores the base64 of the
    UTF-8 of a non-empty PEM text, a request whose type lowers to "fullchain"
    and whose format lowers to a whitelisted format, in any capitalisation, is
    served exactly that text, inline for `txt` and as `fullchain.pem` otherwise.
  */
  lemma ChainDownloadRoundTrip(s: Store, domain: string, typ: string, format: string, i: nat, pem: string)
    requires Lower(typ) == "fullchain" && Lower(format) in AllowedFormats
    requires |s.resolvers| > 0
    requires IsFirstMatch(s.resolvers[0].1.certificates, MainIs(domain), i)
    requires s.resolvers[0].1.certificates[i].certificate == Base64.Encode(Utf8.Encode(pem))
    requires pem != ""
    ensures AttachmentResponse(domain, typ, format, Success(s)) ==
            if Lower(format) == "txt" then Inline(pem) else Attachment("fullchain." + Lower(format), pem)
  {
    Base64DecodeRoundTrip(pem);
    ServesFirstMatch(s, domain, typ, format, i, pem);
  }

  /**
    For either whitelisted type: when the first entry for `domain` stores, in
    the field that type selects, the base64 of the UTF-8 of a non-empty PEM
    text, the route serves exactly that text as `<type>.pem` and inline for `txt`.
  */
  lemma DownloadRoundTrip(s: Store, domain: string, t: string, i: nat, pem: string)
    requires t in AllowedTypes
    requires |s.resolvers| > 0
    requires IsFirstMatch(s.resolvers[0].1.certificates, MainIs(domain), i)
    requires var c := s.resolvers[0].1.certificates[i];
             (if t == "fullchain" then c.certificate else c.key) == Base64.Encode(Utf8.Encode(pem))
    requires pem != ""
    ensures AttachmentResponse(domain, t, "pem", Success(s)) == Attachment(t + ".pem", pem)
    ensures AttachmentResponse(domain, t, "txt", Success(s)) == Inline(pem)
  {
    SelectedFieldDecodes(t, s.resolvers[0].1.certificates[i], pem);
    WhitelistedWordsAreLower(t, "pem");
    WhitelistedWordsAreLower(t, "txt");
    ServedAs(s, domain, t, "pem", i, pem);
    ServedAs(s, domain, t, "txt", i, pem);
    assert t + "." + "pem" == t + ".pem";
  }

  /** The extractor a type selects returns the text encoded in the field that type names. */
  lemma SelectedFieldDecodes(t: string, c: Certificate, pem: string)
    requires (if t == "fullchain" then c.certificate else c.key) == Base64.Encode(Utf8.Encode(pem))
    ensures Extract(t, c) == Success(pem)
  {
    Base64DecodeRoundTrip(pem);
  }

  /** Whitelisted words are their own lower case. */
  lemma WhitelistedWordsAreLower(t: string, f: string)
    requires t in AllowedTypes && f in AllowedFormats
    ensures Lower(t) == t && Lower(f) == f
  {
    LowerWords();
  }

  /** One format of `DownloadRoundTrip`. */
  lemma ServedAs(s: Store, domain: string, t: string, f: string, i: nat, pem: string)
    requires t in AllowedTypes && f in AllowedFormats && Lower(t) == t && Lower(f) == f
    requires |s.resolvers| > 0
    requires IsFirstMatch(s.resolvers[0].1.certificates, MainIs(domain), i)
    requires Extract(t, s.resolvers[0].1.certificates[i]) == Success(pem) && pem != ""
    ensures AttachmentResponse(domain, t, f, Success(s)) == if f == "txt" then Inline(pem) else Attachment(t + "." + f, pem)
  {
    ServesFirstMatch(s, domain, t, f, i, pem);
  }

  /** The path of a download link. */
  function AttachmentPath(domain: string, t: string, f: string): string {
    "/attachment/" + domain + "/" + t + "." + f
  }

  datatype FileLink = FileLink(href: string, title: string)

  datatype IndexRow = IndexRow(id: string, domain: string, sans: seq<string>, files: seq<FileLink>)

  datatype IndexPage = IndexPage(title: string, index: seq<IndexRow>)

  /** A row describes a certificate: its primary domain twice, its SANs (none when absent), two download links. */
  predicate RowDescribes(row: IndexRow, c: Certificate) {
    && row.id == c.domain.main
    && row.domain == c.domain.main
    && row.sans == c.domain.sans.GetOr([])
    && row.files == [FileLink(AttachmentPath(c.domain.main, "fullchain", "pem"), "Certificate"),
                     FileLink(AttachmentPath(c.domain.main, "key", "pem"), "Private Key")]
  }

  function Row(c: Certificate): (row: IndexRow)
    ensures RowDescribes(row, c)
  {
    IndexRow(c.domain.main, c.domain.main, c.domain.sans.GetOr([]),
             [FileLink(AttachmentPath(c.domain.main, "fullchain", "pem"), "Certificate"),
              FileLink(AttachmentPath(c.domain.main, "key", "pem"), "Private Key")])
  }

  /** The data of the index page: one row per certificate of the first resolver, in store order. */
  function IndexData(s: Store): (r: Result<IndexPage, AccessError>)
    ensures r.Failure? <==> |s.resolvers| == 0
    ensures r.Success? ==>
              && r.value.title == "Index of /"
              && |r.value.index| == |s.resolvers[0].1.certificates|
              && forall i :: 0 <= i < |r.value.index| ==> RowDescribes(r.value.index[i], s.resolvers[0].1.certificates[i])
  {
    var cs :- GetCertificates(s);
    Success(IndexPage("Index of /", seq(|cs|, i requires 0 <= i < |cs| => Row(cs[i]))))
  }

  /**
    Both download links of every row are built from the row's domain and pass
    the whitelist; the route, called with that domain and fullchain or key
    with pem, never answers 400 or 404.
  */
  lemma IndexLinksResolve(s: Store, i: nat)
    requires IndexData(s).Success? && i < |IndexData(s).value.index|
    ensures var row := IndexData(s).value.index[i];
            && row.files[0].href == AttachmentPath(row.domain, "fullchain", "pem")
            && row.files[1].href == AttachmentPath(row.domain, "key", "pem")
            && Allowed("fullchain", "pem") && Allowed("key", "pem")
            && AttachmentResponse(row.domain, "fullchain", "pem", Success(s)) !in {BadRequest, NotFound}
            && AttachmentResponse(row.domain, "key", "pem", Success(s)) !in {BadRequest, NotFound}
  {
    var cs := s.resolvers[0].1.certificates;
    var row := IndexData(s).value.index[i];
    assert RowDescribes(row, cs[i]);
    assert cs[i] in cs;
    LowerFixesLowercase("fullchain");
    LowerFixesLowercase("key");
    LowerFixesLowercase("pem");
  }
}

=== FILE: base64.dfy ===
/**
  The base64 encoding of section 4 of RFC 4648, with a strict decoder: input
  length a multiple of four, padding only at the end, only alphabet symbols,
  and zero pad bits (section 3.5). Under these rules decoding is the exact
  inverse of encoding in both directions.
*/
module Base64 {
  import opened Wrappers
  import opened Octets

  /** The symbol for a digit value, per table 1 of the RFC. */
  function Symbol(v: int): char
    requires 0 <= v < 64
  {
    if v < 26 then (65 + v) as char
    else if v < 52 then (71 + v) as char
    else if v < 62 then (v - 4) as char
    else if v == 62 then '+'
    else '/'
  }

  /** The digit value of a symbol; `None` for '=' and every character outside the alphabet. */
  function Value(c: char): (r: Option<int>)
    ensures r.Some? ==> 0 <= r.value < 64
  {
    if 'A' <= c <= 'Z' then Some(c as int - 65)
    else if 'a' <= c <= 'z' then Some(c as int - 71)
    else if '0' <= c <= '9' then Some(c as int + 4)
    else if c == '+' then Some(62)
    else if c == '/' then Some(63)
    else None
  }

  lemma ValueOfSymbol(v: int)
    requires 0 <= v < 64
    ensures Value(Symbol(v)) == Some(v) && Symbol(v) != '='
  {
  }

  lemma SymbolOfValue(c: char)
    requires Value(c).Some?
    ensures Symbol(Value(c).value) == c && c != '='
  {
  }

  /** Symbol and Value are inverse bijections between digit values and the 64 alphabet symbols. */
  lemma AlphabetBijection(v: int, c: char)
    requires 0 <= v < 64
    ensures Value(Symbol(v)) == Some(v) && Symbol(v) != '='
    ensures Value(c) == Some(v) ==> Symbol(v) == c
    ensures Value(c).Some? ==> c != '='
  {
    ValueOfSymbol(v);
    if Value(c).Some? {
      SymbolOfValue(c);
    }
  }

  /** Three bytes as four symbols: 24 bits cut into four 6-bit groups, most significant first. */
  function Quad(b0: Byte, b1: Byte, b2: Byte): seq<char>
  {
    [Symbol(b0 / 4), Symbol(b0 % 4 * 16 + b1 / 16), Symbol(b1 % 16 * 4 + b2 / 64), Symbol(b2 % 64)]
  }

  /** Encodes bytes as base64 text; a final group of one or two bytes is padded with '='. */
  function Encode(b: seq<Byte>): (s: seq<char>)
    ensures |s| == (|b| + 2) / 3 * 4
    decreases |b|
  {
    if |b| == 0 then []
    else if |b| == 1 then [Symbol(b[0] / 4), Symbol(b[0] % 4 * 16), '=', '=']
    else if |b| == 2 then [Symbol(b[0] / 4), Symbol(b[0] % 4 * 16 + b[1] / 16), Symbol(b[1] % 16 * 4), '=']
    else Quad(b[0], b[1], b[2]) + Encode(b[3..])
  }

  /** Four alphabet symbols as three bytes. */
  function DecodeQuad(c0: char, c1: char, c2: char, c3: char): (r: Option<seq<Byte>>)
    ensures r.Some? ==> |r.value| == 3
  {
    var v0 :- Value(c0);
    var v1 :- Value(c1);
    var v2 :- Value(c2);
    var v3 :- Value(c3);
    Some([v0 * 4 + v1 / 16, v1 % 16 * 16 + v2 / 4, v2 % 4 * 64 + v3])
  }

  /** The last group of four symbols, which may carry one or two padding characters. */
  function DecodeFinal(c0: char, c1: char, c2: char, c3: char): (r: Option<seq<Byte>>)
    ensures r.Some? ==> 1 <= |r.value| <= 3
  {
    if c2 == '=' && c3 == '=' then
      var v0 :- Value(c0);
      var v1 :- Value(c1);
      if v1 % 16 != 0 then None else Some([v0 * 4 + v1 / 16])
    else if c3 == '=' then
      var v0 :- Value(c0);
      var v1 :- Value(c1);
      var v2 :- Value(c2);
      if v2 % 4 != 0 then None else Some([v0 * 4 + v1 / 16, v1 % 16 * 16 + v2 / 4])
    else
      DecodeQuad(c0, c1, c2, c3)
  }

  /** Strict decoding: `None` unless the text is exactly the encoding of some byte sequence. */
  function Decode(s: seq<char>): Option<seq<Byte>>
    decreases |s|
  {
    if |s| == 0 then Some([])
    else if |s| < 4 then None
    else if |s| == 4 then DecodeFinal(s[0], s[1], s[2], s[3])
    else
      var head :- DecodeQuad(s[0], s[1], s[2], s[3]);
      var tail :- Decode(s[4..]);
      Some(head + tail)
  }


  /** Cutting three bytes into four 6-bit groups and gluing them back gives the bytes. */
  lemma BytesRegroup(b0: Byte, b1: Byte, b2: Byte)
    ensures var v1, v2, v3 := b0 % 4 * 16 + b1 / 16, b1 % 16 * 4 + b2 / 64, b2 % 64;
            && 0 <= v1 < 64 && 0 <= v2 < 64
            && b0 / 4 * 4 + v1 / 16 == b0 && v1 % 16 * 16 + v2 / 4 == b1 && v2 % 4 * 64 + v3 == b2
  {
    var v1, v2 := b0 % 4 * 16 + b1 / 16, b1 % 16 * 4 + b2 / 64;
    assert v1 / 16 == b0 % 4 && v1 % 16 == b1 / 16;
    assert v2 / 4 == b1 % 16 && v2 % 4 == b2 / 64;
  }

  lemma QuadRoundTrip(b0: Byte, b1: Byte, b2: Byte)
    ensures DecodeQuad(Symbol(b0 / 4), Symbol(b0 % 4 * 16 + b1 / 16), Symbol(b1 % 16 * 4 + b2 / 64), Symbol(b2 % 64))
            == Some([b0, b1, b2])
  {
    var v0, v1, v2, v3 := b0 / 4, b0 % 4 * 16 + b1 / 16, b1 % 16 * 4 + b2 / 64, b2 % 64;
    BytesRegroup(b0, b1, b2);
    ValueOfSymbol(v0);
    ValueOfSymbol(v1);
    ValueOfSymbol(v2);
    ValueOfSymbol(v3);
    assert DecodeQuad(Symbol(v0), Symbol(v1), Symbol(v2), Symbol(v3))
           == Some([v0 * 4 + v1 / 16, v1 % 16 * 16 + v2 / 4, v2 % 4 * 64 + v3]);
  }

  /** Cutting one or two bytes into 6-bit groups, zero-filled, and gluing them back gives the bytes. */
  lemma ShortBytesRegroup(b0: Byte, b1: Byte)
    ensures var v1, w1, w2 := b0 % 4 * 16, b0 % 4 * 16 + b1 / 16, b1 % 16 * 4;
            && 0 <= v1 < 64 && v1 % 16 == 0 && b0 / 4 * 4 + v1 / 16 == b0
            && 0 <= w1 < 64 && 0 <= w2 < 64 && w2 % 4 == 0
            && b0 / 4 * 4 + w1 / 16 == b0 && w1 % 16 * 16 + w2 / 4 == b1
  {
    var w1, w2 := b0 % 4 * 16 + b1 / 16, b1 % 16 * 4;
    assert w1 / 16 == b0 % 4 && w1 % 16 == b1 / 16;
    assert w2 / 4 == b1 % 16;
  }

  /** One trailing byte: two symbols and two padding characters decode back to it. */
  lemma PaddedOneRoundTrip(b0: Byte)
    ensures Decode(Encode([b0])) == Some([b0])
  {
    var v0, v1 := b0 / 4, b0 % 4 * 16;
    ShortBytesRegroup(b0, 0);
    ValueOfSymbol(v0);
    ValueOfSymbol(v1);
    assert Encode([b0]) == [Symbol(v0), Symbol(v1), '=', '='];
    assert DecodeFinal(Symbol(v0), Symbol(v1), '=', '=') == Some([v0 * 4 + v1 / 16]);
  }

  /** Two trailing bytes: three symbols and one padding character decode back to them. */
  lemma PaddedTwoRoundTrip(b0: Byte, b1: Byte)
    ensures Decode(Encode([b0, b1])) == Some([b0, b1])
  {
    var v0, v1, v2 := b0 / 4, b0 % 4 * 16 + b1 / 16, b1 % 16 * 4;
    ShortBytesRegroup(b0, b1);
    ValueOfSymbol(v0);
    ValueOfSymbol(v1);
    ValueOfSymbol(v2);
    assert Encode([b0, b1]) == [Symbol(v0), Symbol(v1), Symbol(v2), '='];
    assert DecodeFinal(Symbol(v0), Symbol(v1), Symbol(v2), '=') == Some([v0 * 4 + v1 / 16, v1 % 16 * 16 + v2 / 4]);
  }

  /** Text longer than one group decodes as a full group followed by the rest. */
  lemma DecodeGroupThenRest(s: seq<char>)
    requires |s| > 4
    ensures Decode(s) == (match DecodeQuad(s[0], s[1], s[2], s[3])
                          case None => None
                          case Some(head) =>
                            match Decode(s[4..])
                            case None => None
                            case Some(tail) => Some(head + tail))
  {
  }

  /** More than two bytes encode as one full group followed by the rest. */
  lemma EncodeGroupThenRest(b: seq<Byte>)
    requires |b| >= 3
    ensures Encode(b) == Quad(b[0], b[1], b[2]) + Encode(b[3..])
  {
  }

  /** Decoding undoes encoding: every byte sequence survives an encode/decode round trip. */
  lemma {:induction false} DecodeEncode(b: seq<Byte>)
    ensures Decode(Encode(b)) == Some(b)
    decreases |b|
  {
    if |b| == 0 {
    } else if |b| == 1 {
      PaddedOneRoundTrip(b[0]);
      assert b == [b[0]];
    } else if |b| == 2 {
      PaddedTwoRoundTrip(b[0], b[1]);
      assert b == [b[0], b[1]];
    } else if |b| == 3 {
      SingleGroupRoundTrip(b[0], b[1], b[2]);
      assert b == [b[0], b[1], b[2]];
    } else {
      DecodeEncode(b[3..]);
      GroupThenRestRoundTrip(b);
    }
  }

  /** The symbols of a full group decode to its three bytes. */
  lemma QuadDecodes(b0: Byte, b1: Byte, b2: Byte)
    ensures var q := Quad(b0, b1, b2); DecodeQuad(q[0], q[1], q[2], q[3]) == Some([b0, b1, b2])
  {
    QuadRoundTrip(b0, b1, b2);
  }

  /** Three bytes encode to one group without padding, which decodes back to them. */
  lemma SingleGroupRoundTrip(b0: Byte, b1: Byte, b2: Byte)
    ensures Encode([b0, b1, b2]) == Quad(b0, b1, b2)
    ensures Decode(Quad(b0, b1, b2)) == Some([b0, b1, b2])
  {
    QuadRoundTrip(b0, b1, b2);
    AlphabetBijection(b1 % 16 * 4 + b2 / 64, 'A');
    AlphabetBijection(b2 % 64, 'A');
    assert [b0, b1, b2][3..] == [];
  }

  /** A leading full group decodes back, in front of a rest that round-trips. */
  lemma GroupThenRestRoundTrip(b: seq<Byte>)
    requires |b| > 3 && Decode(Encode(b[3..])) == Some(b[3..])
    ensures Decode(Encode(b)) == Some(b)
  {
    var head, tail := [b[0], b[1], b[2]], b[3..];
    SplitFirstGroup(b);
    var q, rest := Quad(b[0], b[1], b[2]), Encode(tail);
    QuadDecodes(b[0], b[1], b[2]);
    EncodeGroupThenRest(b);
    SplitAfterGroup(q, rest);
    var text := q + rest;
    assert DecodeQuad(text[0], text[1], text[2], text[3]) == Some(head);
    assert Decode(text[4..]) == Some(tail);
    DecodeGroupThenRest(text);
    assert Decode(text) == Some(head + tail);
  }

  lemma SplitFirstGroup(b: seq<Byte>)
    requires |b| >= 3
    ensures b == [b[0], b[1], b[2]] + b[3..]
  {
  }

  /** The first four symbols of a longer text are its first group; the rest follows. */
  lemma SplitAfterGroup(q: seq<char>, rest: seq<char>)
    requires |q| == 4 && |rest| > 0
    ensures |q + rest| > 4 && (q + rest)[..4] == q && (q + rest)[4..] == rest
    ensures (q + rest)[0] == q[0] && (q + rest)[1] == q[1] && (q + rest)[2] == q[2] && (q + rest)[3] == q[3]
  {
  }

  /** The test vectors of section 10 of RFC 4648: the encodings of "", "f", "fo", …, "foobar". */
  lemma RfcTestVectors()
    ensures Encode([]) == ""
    ensures Encode([102]) == "Zg=="
    ensures Encode([102, 111]) == "Zm8="
    ensures Encode([102, 111, 111]) == "Zm9v"
    ensures Encode([102, 111, 111, 98]) == "Zm9vYg=="
    ensures Encode([102, 111, 111, 98, 97]) == "Zm9vYmE="
    ensures Encode([102, 111, 111, 98, 97, 114]) == "Zm9vYmFy"
  {
  }

  /** The five hyphens that open every PEM boundary line, as base64 with one padding symbol. */
  lemma PemDashesEncoding()
    ensures Encode([45, 45, 45, 45, 45]) == "LS0tLS0="
  {
  }

  /** Regrouping four 6-bit values into bytes and back gives the same 6-bit values. */
  lemma SextetsRegroup(v0: int, v1: int, v2: int, v3: int)
    requires 0 <= v0 < 64 && 0 <= v1 < 64 && 0 <= v2 < 64 && 0 <= v3 < 64
    ensures var b0, b1, b2 := v0 * 4 + v1 / 16, v1 % 16 * 16 + v2 / 4, v2 % 4 * 64 + v3;
            b0 / 4 == v0 && b0 % 4 * 16 + b1 / 16 == v1 && b1 % 16 * 4 + b2 / 64 == v2 && b2 % 64 == v3
  {
    var b0, b1, b2 := v0 * 4 + v1 / 16, v1 % 16 * 16 + v2 / 4, v2 % 4 * 64 + v3;
    assert b0 / 4 == v0 && b0 % 4 == v1 / 16;
    assert b1 / 16 == v1 % 16 && b1 % 16 == v2 / 4;
    assert b2 / 64 == v2 % 4 && b2 % 64 == v3;
  }

  lemma QuadInverse(c0: char, c1: char, c2: char, c3: char)
    requires DecodeQuad(c0, c1, c2, c3).Some?
    ensures var r := DecodeQuad(c0, c1, c2, c3).value;
            Quad(r[0], r[1], r[2]) == [c0, c1, c2, c3]
  {
    var v0, v1, v2, v3 := Value(c0).value, Value(c1).value, Value(c2).value, Value(c3).value;
    SymbolOfValue(c0);
    SymbolOfValue(c1);
    SymbolOfValue(c2);
    SymbolOfValue(c3);
    var b0, b1, b2 := v0 * 4 + v1 / 16, v1 % 16 * 16 + v2 / 4, v2 % 4 * 64 + v3;
    assert DecodeQuad(c0, c1, c2, c3).value == [b0, b1, b2];
    SextetsRegroup(v0, v1, v2, v3);
    assert Quad(b0, b1, b2) == [Symbol(v0), Symbol(v1), Symbol(v2), Symbol(v3)];
  }

  /** A final group the decoder accepts is the encoding of the one to three bytes it yields. */
  lemma FinalInverse(c0: char, c1: char, c2: char, c3: char)
    requires DecodeFinal(c0, c1, c2, c3).Some?
    ensures Encode(DecodeFinal(c0, c1, c2, c3).value) == [c0, c1, c2, c3]
  {
    if c2 == '=' && c3 == '=' {
      var v0, v1 := Value(c0).value, Value(c1).value;
      AlphabetBijection(v0, c0);
      AlphabetBijection(v1, c1);
      var b0 := v0 * 4 + v1 / 16;
      assert b0 / 4 == v0 && b0 % 4 * 16 == v1;
    } else if c3 == '=' {
      var v0, v1, v2 := Value(c0).value, Value(c1).value, Value(c2).value;
      AlphabetBijection(v0, c0);
      AlphabetBijection(v1, c1);
      AlphabetBijection(v2, c2);
      var b0, b1 := v0 * 4 + v1 / 16, v1 % 16 * 16 + v2 / 4;
      assert b0 / 4 == v0 && b0 % 4 == v1 / 16;
      assert b1 / 16 == v1 % 16 && b1 % 16 * 4 == v2;
    } else {
      QuadInverse(c0, c1, c2, c3);
    }
  }

  /** The inductive step: a full first group, followed by text whose decoding re-encodes to it. */
  lemma GroupThenRestInverse(s: seq<char>, b: seq<Byte>, tail: seq<Byte>)
    requires |s| > 4 && DecodeQuad(s[0], s[1], s[2], s[3]).Some?
    requires b == DecodeQuad(s[0], s[1], s[2], s[3]).value + tail
    requires Encode(tail) == s[4..]
    ensures Encode(b) == s
  {
    var head := DecodeQuad(s[0], s[1], s[2], s[3]).value;
    assert |tail| > 0;
    QuadInverse(s[0], s[1], s[2], s[3]);
    assert b[0] == head[0] && b[1] == head[1] && b[2] == head[2] && b[3..] == tail;
    EncodeGroupThenRest(b);
    assert s == s[..4] + s[4..];
  }

  /** Encoding undoes decoding: text the strict decoder accepts is the canonical encoding of its result. */
  lemma {:induction false} EncodeDecode(s: seq<char>, b: seq<Byte>)
    requires Decode(s) == Some(b)
    ensures Encode(b) == s
    decreases |s|
  {
    if |s| == 4 {
      FinalInverse(s[0], s[1], s[2], s[3]);
    } else if |s| > 4 {
      DecodeGroupThenRest(s);
      var tail := Decode(s[4..]).value;
      EncodeDecode(s[4..], tail);
      GroupThenRestInverse(s, b, tail);
    }
  }

  /** The strict decoder accepts exactly the canonical encodings, and inverts them. */
  lemma DecodeIffEncode(s: seq<char>, b: seq<Byte>)
    ensures Decode(s) == Some(b) <==> Encode(b) == s
  {
    if Decode(s) == Some(b) {
      EncodeDecode(s, b);
    }
    if Encode(b) == s {
      DecodeEncode(b);
    }
  }
}

=== FILE: decoder_properties.dfy ===
/**
  Properties of the store decoder: the serialisation of any typed store
  decodes back to that store, and the document-wide consequences of the
  all-or-nothing rule.
*/
module DecoderProperties {
  import opened Wrappers
  import opened Json
  import opened StoreModel
  import opened Decoders

  // The store written back as JSON, the shape the certificate manager persists.

  function EncodeAccount(a: Account): Json {
    JObject([
      ("Email", JString(a.email)),
      ("Registration", JObject([
        ("body", JObject([
          ("status", JString(a.registration.body.status)),
          ("contact", JArray(Strings(a.registration.body.contact)))])),
        ("uri", JString(a.registration.uri))])),
      ("PrivateKey", JString(a.privateKey)),
      ("KeyType", JString(a.keyType))])
  }

  /** An absent `sans` is written by leaving the property out. */
  function EncodeDomain(d: Domain): Json {
    match d.sans
    case None => JObject([("main", JString(d.main))])
    case Some(xs) => JObject([("main", JString(d.main)), ("sans", JArray(Strings(xs)))])
  }

  function EncodeCertificate(c: Certificate): Json {
    JObject([
      ("domain", EncodeDomain(c.domain)),
      ("certificate", JString(c.certificate)),
      ("key", JString(c.key)),
      ("Store", JString(c.store))])
  }

  function EncodeCertificates(cs: seq<Certificate>): (items: seq<Json>)
    ensures |items| == |cs|
  {
    seq(|cs|, i requires 0 <= i < |cs| => EncodeCertificate(cs[i]))
  }

  function EncodeResolver(r: Resolver): Json {
    JObject([("Account", EncodeAccount(r.account)), ("Certificates", JArray(EncodeCertificates(r.certificates)))])
  }

  function EncodeResolvers(rs: seq<(string, Resolver)>): (fields: seq<(string, Json)>)
    ensures |fields| == |rs|
  {
    seq(|rs|, i requires 0 <= i < |rs| => (rs[i].0, EncodeResolver(rs[i].1)))
  }

  function EncodeStore(s: Store): Json {
    JObject(EncodeResolvers(s.resolvers))
  }

  // Round trips, from the leaves up.

  lemma StringArrayRoundTrip(xs: seq<string>)
    ensures DecodeStringArray(Some(JArray(Strings(xs)))) == Success(xs)
  {
    var r := DecodeStringArray(Some(JArray(Strings(xs))));
    assert r.value == xs by {
      assert forall i :: 0 <= i < |xs| ==> Strings(r.value)[i] == JString(xs[i]);
    }
  }

  lemma AccountRoundTrip(a: Account)
    ensures DecodeAccount(Some(EncodeAccount(a))) == Success(a)
  {
    var j := EncodeAccount(a);
    var reg := j.fields[1].1;
    var body := reg.fields[0].1;
    StringArrayRoundTrip(a.registration.body.contact);
    LookupAt(body.fields, "status", 0);
    LookupAt(body.fields, "contact", 1);
    assert DecodeRegistrationBody(Some(body)) == Success(a.registration.body);
    LookupAt(reg.fields, "body", 0);
    LookupAt(reg.fields, "uri", 1);
    assert DecodeRegistration(Some(reg)) == Success(a.registration);
    LookupAt(j.fields, "Email", 0);
    LookupAt(j.fields, "Registration", 1);
    LookupAt(j.fields, "PrivateKey", 2);
    LookupAt(j.fields, "KeyType", 3);
  }

  lemma DomainRoundTrip(d: Domain)
    ensures DecodeDomain(Some(EncodeDomain(d))) == Success(d)
  {
    var j := EncodeDomain(d);
    LookupAt(j.fields, "main", 0);
    if d.sans.Some? {
      StringArrayRoundTrip(d.sans.value);
      LookupAt(j.fields, "sans", 1);
    } else {
      LookupFindsFirst(j.fields, "sans");
    }
  }

  lemma CertificateRoundTrip(c: Certificate)
    ensures DecodeCertificate(Some(EncodeCertificate(c))) == Success(c)
  {
    var j := EncodeCertificate(c);
    DomainRoundTrip(c.domain);
    LookupAt(j.fields, "domain", 0);
    LookupAt(j.fields, "certificate", 1);
    LookupAt(j.fields, "key", 2);
    LookupAt(j.fields, "Store", 3);
  }

  lemma CertificatesRoundTrip(cs: seq<Certificate>)
    ensures DecodeCertificates(EncodeCertificates(cs)) == Success(cs)
  {
    var items := EncodeCertificates(cs);
    forall k | 0 <= k < |cs|
      ensures IsCertificate(items[k]) && CertificateAgrees(cs[k], items[k])
    {
      CertificateRoundTrip(cs[k]);
    }
    var r := DecodeCertificates(items);
    CertificatesAgreementUnique(r.value, cs, items);
  }

  lemma ResolverRoundTrip(r: Resolver)
    ensures DecodeResolver(Some(EncodeResolver(r))) == Success(r)
  {
    var j := EncodeResolver(r);
    AccountRoundTrip(r.account);
    CertificatesRoundTrip(r.certificates);
    LookupAt(j.fields, "Account", 0);
    LookupAt(j.fields, "Certificates", 1);
  }

  /** Every typed store, written as JSON, passes validation and decodes back to itself. */
  lemma DecodeEncodeStore(s: Store)
    ensures DecodeStore(EncodeStore(s)) == Success(s)
  {
    var rs := s.resolvers;
    var fields := EncodeResolvers(rs);
    forall i | 0 <= i < |rs|
      ensures IsResolver(fields[i].1) && ResolverAgrees(rs[i].1, fields[i].1)
    {
      ResolverRoundTrip(rs[i].1);
    }
    var r := DecodeStore(EncodeStore(s));
    assert IsStore(EncodeStore(s));
    var decoded := r.value.resolvers;
    forall i | 0 <= i < |rs|
      ensures decoded[i] == rs[i]
    {
      assert decoded[i].0 == fields[i].0 == rs[i].0;
      ResolverAgreementUnique(decoded[i].1, rs[i].1, fields[i].1);
    }
    assert decoded == rs;
  }

  // A typed value is determined by the JSON it agrees with.

  lemma StringsInjective(xs: seq<string>, ys: seq<string>)
    requires Strings(xs) == Strings(ys)
    ensures xs == ys
  {
    forall i | 0 <= i < |xs|
      ensures xs[i] == ys[i]
    {
      assert Strings(xs)[i] == Strings(ys)[i];
    }
  }

  lemma AccountAgreementUnique(a: Account, b: Account, j: Json)
    requires AccountAgrees(a, j) && AccountAgrees(b, j)
    ensures a == b
  {
    StringsInjective(a.registration.body.contact, b.registration.body.contact);
  }

  lemma CertificateAgreementUnique(a: Certificate, b: Certificate, j: Json)
    requires CertificateAgrees(a, j) && CertificateAgrees(b, j)
    ensures a == b
  {
    if a.domain.sans.Some? && b.domain.sans.Some? {
      StringsInjective(a.domain.sans.value, b.domain.sans.value);
    }
  }

  lemma CertificatesAgreementUnique(xs: seq<Certificate>, ys: seq<Certificate>, items: seq<Json>)
    requires CertificatesAgree(xs, items) && CertificatesAgree(ys, items)
    ensures xs == ys
  {
    forall k | 0 <= k < |items|
      ensures xs[k] == ys[k]
    {
      CertificateAgreementUnique(xs[k], ys[k], items[k]);
    }
  }

  lemma ResolverAgreementUnique(a: Resolver, b: Resolver, j: Json)
    requires ResolverAgrees(a, j) && ResolverAgrees(b, j)
    ensures a == b
  {
    AccountAgreementUnique(a.account, b.account, Get(j, "Account").value);
    CertificatesAgreementUnique(a.certificates, b.certificates, Get(j, "Certificates").value.items);
  }

  // All or nothing: one bad entry anywhere rejects the whole document.

  /** An empty object is a valid store, with no resolvers. */
  lemma EmptyDictAccepted()
    ensures DecodeStore(JObject([])) == Success(Store([]))
  {
  }

  /** A certificate entry that does not have the certificate shape rejects the whole store. */
  lemma BadCertificateRejectsStore(j: Json, i: nat, k: nat)
    requires j.JObject? && i < |j.fields|
    requires Get(j.fields[i].1, "Certificates").Some? && Get(j.fields[i].1, "Certificates").value.JArray?
    requires k < |Get(j.fields[i].1, "Certificates").value.items|
    requires !IsCertificate(Get(j.fields[i].1, "Certificates").value.items[k])
    ensures DecodeStore(j).Failure?
  {
    assert !IsResolver(j.fields[i].1);
  }

  /** `sans` may be absent, but one non-string element in a present `sans` rejects the whole store. */
  lemma NonStringSanRejectsStore(j: Json, i: nat, k: nat, m: nat)
    requires j.JObject? && i < |j.fields|
    requires Get(j.fields[i].1, "Certificates").Some? && Get(j.fields[i].1, "Certificates").value.JArray?
    requires k < |Get(j.fields[i].1, "Certificates").value.items|
    requires var entry := Get(j.fields[i].1, "Certificates").value.items[k];
             var sans := At(entry, ["domain", "sans"]);
             sans.Some? && sans.value.JArray? && m < |sans.value.items| && !sans.value.items[m].JString?
    ensures DecodeStore(j).Failure?
  {
    var entry := Get(j.fields[i].1, "Certificates").value.items[k];
    assert At(entry, ["domain", "sans"]) == Get(Get(entry, "domain").value, "sans");
    BadCertificateRejectsStore(j, i, k);
  }

  /** The `Store` tag of an entry is checked to be a string, not to be "default". */
  lemma StoreTagNotRestricted()
    ensures exists j, c :: DecodeCertificate(Some(j)) == Success(c) && c.store != "default"
  {
    var c := Certificate(Domain("example.com", None), "", "", "other");
    CertificateRoundTrip(c);
  }
}

=== FILE: decoders.dfy ===
/**
  The declarative store decoder: a JSON value is checked against the store
  shape and either becomes a fully typed Store or is rejected as a whole.
  Every decoder takes the value of a property, where `None` stands for a
  property that is absent (JavaScript's `undefined`). Object decoders ignore
  properties they do not name. Errors are opaque.
*/
module Decoders {
  import opened Wrappers
  import opened Json
  import opened StoreModel

  datatype DecodeError = ShapeMismatch

  // Reference definitions of the shape, stated property by property.

  /** `array(string)`: an array whose every element is a string. */
  predicate IsStringArray(j: Json) {
    j.JArray? && forall i :: 0 <= i < |j.items| ==> j.items[i].JString?
  }

  predicate HasString(j: Json, key: string) {
    Get(j, key).Some? && Get(j, key).value.JString?
  }

  predicate IsRegistrationBody(j: Json) {
    && j.JObject?
    && HasString(j, "status")
    && Get(j, "contact").Some? && IsStringArray(Get(j, "contact").value)
  }

  predicate IsRegistration(j: Json) {
    && j.JObject?
    && Get(j, "body").Some? && IsRegistrationBody(Get(j, "body").value)
    && HasString(j, "uri")
  }

  predicate IsAccount(j: Json) {
    && j.JObject?
    && HasString(j, "Email")
    && Get(j, "Registration").Some? && IsRegistration(Get(j, "Registration").value)
    && HasString(j, "PrivateKey")
    && HasString(j, "KeyType")
  }

  predicate IsDomain(j: Json) {
    && j.JObject?
    && HasString(j, "main")
    && (Get(j, "sans").None? || IsStringArray(Get(j, "sans").value))
  }

  predicate IsCertificate(j: Json) {
    && j.JObject?
    && Get(j, "domain").Some? && IsDomain(Get(j, "domain").value)
    && HasString(j, "certificate")
    && HasString(j, "key")
    && HasString(j, "Store")
  }

  predicate IsCertificateArray(j: Json) {
    j.JArray? && forall i :: 0 <= i < |j.items| ==> IsCertificate(j.items[i])
  }

  predicate IsResolver(j: Json) {
    && j.JObject?
    && Get(j, "Account").Some? && IsAccount(Get(j, "Account").value)
    && Get(j, "Certificates").Some? && IsCertificateArray(Get(j, "Certificates").value)
  }

  /** `dict(resolver)`: an object whose every property value is a resolver; `{}` included. */
  predicate IsStore(j: Json) {
    j.JObject? && forall i :: 0 <= i < |j.fields| ==> IsResolver(j.fields[i].1)
  }

  // How a typed value relates to the JSON it was decoded from.

  predicate AccountAgrees(a: Account, j: Json) {
    && At(j, ["Email"]) == Some(JString(a.email))
    && At(j, ["Registration", "body", "status"]) == Some(JString(a.registration.body.status))
    && At(j, ["Registration", "body", "contact"]) == Some(JArray(Strings(a.registration.body.contact)))
    && At(j, ["Registration", "uri"]) == Some(JString(a.registration.uri))
    && At(j, ["PrivateKey"]) == Some(JString(a.privateKey))
    && At(j, ["KeyType"]) == Some(JString(a.keyType))
  }

  predicate CertificateAgrees(c: Certificate, j: Json) {
    && At(j, ["domain", "main"]) == Some(JString(c.domain.main))
    && At(j, ["domain", "sans"]) == (match c.domain.sans
                                     case None => None
                                     case Some(xs) => Some(JArray(Strings(xs))))
    && At(j, ["certificate"]) == Some(JString(c.certificate))
    && At(j, ["key"]) == Some(JString(c.key))
    && At(j, ["Store"]) == Some(JString(c.store))
  }

  predicate CertificatesAgree(cs: seq<Certificate>, items: seq<Json>) {
    |cs| == |items| && forall k :: 0 <= k < |items| ==> CertificateAgrees(cs[k], items[k])
  }

  predicate ResolverAgrees(r: Resolver, j: Json) {
    && Get(j, "Account").Some? && AccountAgrees(r.account, Get(j, "Account").value)
    && Get(j, "Certificates").Some? && Get(j, "Certificates").value.JArray?
    && CertificatesAgree(r.certificates, Get(j, "Certificates").value.items)
  }

  /** Same names in the same order, each resolver agreeing with its JSON value. */
  predicate ResolversAgree(rs: seq<(string, Resolver)>, fields: seq<(string, Json)>) {
    && |rs| == |fields|
    && forall i :: 0 <= i < |fields| ==> rs[i].0 == fields[i].0 && ResolverAgrees(rs[i].1, fields[i].1)
  }

  lemma ResolversAgreeCons(name: string, head: Resolver, tail: seq<(string, Resolver)>, fields: seq<(string, Json)>)
    requires |fields| > 0 && fields[0].0 == name && ResolverAgrees(head, fields[0].1)
    requires ResolversAgree(tail, fields[1..])
    ensures ResolversAgree([(name, head)] + tail, fields)
  {
    var all := [(name, head)] + tail;
    forall i | 1 <= i < |fields|
      ensures all[i].0 == fields[i].0 && ResolverAgrees(all[i].1, fields[i].1)
    {
      assert all[i] == tail[i - 1];
      assert fields[i] == fields[1..][i - 1];
    }
  }

  // The decoders.

  /** `string` */
  function DecodeString(v: Option<Json>): (r: Result<string, DecodeError>)
    ensures r.Success? <==> v.Some? && v.value.JString?
    ensures r.Success? ==> v == Some(JString(r.value))
  {
    match v
    case Some(JString(s)) => Success(s)
    case _ => Failure(ShapeMismatch)
  }

  function DecodeStrings(items: seq<Json>): (r: Result<seq<string>, DecodeError>)
    ensures r.Success? <==> forall i :: 0 <= i < |items| ==> items[i].JString?
    ensures r.Success? ==> items == Strings(r.value)
  {
    if |items| == 0 then Success([])
    else if !items[0].JString? then Failure(ShapeMismatch)
    else
      var tail :- DecodeStrings(items[1..]);
      StringsCons(items[0].str, tail, items);
      Success([items[0].str] + tail)
  }

  lemma StringsCons(x: string, xs: seq<string>, items: seq<Json>)
    requires |items| > 0 && items[0] == JString(x) && items[1..] == Strings(xs)
    ensures items == Strings([x] + xs)
  {
    assert items == [items[0]] + items[1..];
  }

  /** `array(string)` */
  function DecodeStringArray(v: Option<Json>): (r: Result<seq<string>, DecodeError>)
    ensures r.Success? <==> v.Some? && IsStringArray(v.value)
    ensures r.Success? ==> v == Some(JArray(Strings(r.value)))
  {
    match v
    case Some(JArray(items)) => DecodeStrings(items)
    case _ => Failure(ShapeMismatch)
  }

  /** `optional(array(string))`: an absent property is accepted as `None`. */
  function DecodeSans(v: Option<Json>): (r: Result<Option<seq<string>>, DecodeError>)
    ensures r.Success? <==> v.None? || IsStringArray(v.value)
    ensures r == Success(None) <==> v.None?
    ensures r.Success? && r.value.Some? ==> v == Some(JArray(Strings(r.value.value)))
  {
    if v.None? then Success(None)
    else
      var xs :- DecodeStringArray(v);
      Success(Some(xs))
  }

  function DecodeRegistrationBody(v: Option<Json>): (r: Result<RegistrationBody, DecodeError>)
    ensures r.Success? <==> v.Some? && IsRegistrationBody(v.value)
    ensures r.Success? ==> Get(v.value, "status") == Some(JString(r.value.status))
                           && Get(v.value, "contact") == Some(JArray(Strings(r.value.contact)))
  {
    if v.None? || !v.value.JObject? then Failure(ShapeMismatch)
    else
      var status :- DecodeString(Get(v.value, "status"));
      var contact :- DecodeStringArray(Get(v.value, "contact"));
      Success(RegistrationBody(status, contact))
  }

  function DecodeRegistration(v: Option<Json>): (r: Result<Registration, DecodeError>)
    ensures r.Success? <==> v.Some? && IsRegistration(v.value)
    ensures r.Success? ==> && At(v.value, ["body", "status"]) == Some(JString(r.value.body.status))
                           && At(v.value, ["body", "contact"]) == Some(JArray(Strings(r.value.body.contact)))
                           && At(v.value, ["uri"]) == Some(JString(r.value.uri))
  {
    if v.None? || !v.value.JObject? then Failure(ShapeMismatch)
    else
      var body :- DecodeRegistrationBody(Get(v.value, "body"));
      var uri :- DecodeString(Get(v.value, "uri"));
      Success(Registration(body, uri))
  }

  function DecodeAccount(v: Option<Json>): (r: Result<Account, DecodeError>)
    ensures r.Success? <==> v.Some? && IsAccount(v.value)
    ensures r.Success? ==> AccountAgrees(r.value, v.value)
  {
    if v.None? || !v.value.JObject? then Failure(ShapeMismatch)
    else
      var email :- DecodeString(Get(v.value, "Email"));
      var registration :- DecodeRegistration(Get(v.value, "Registration"));
      var privateKey :- DecodeString(Get(v.value, "PrivateKey"));
      var keyType :- DecodeString(Get(v.value, "KeyType"));
      Success(Account(email, registration, privateKey, keyType))
  }

  function DecodeDomain(v: Option<Json>): (r: Result<Domain, DecodeError>)
    ensures r.Success? <==> v.Some? && IsDomain(v.value)
    ensures r.Success? ==> Get(v.value, "main") == Some(JString(r.value.main))
    ensures r.Success? ==> Get(v.value, "sans") == (match r.value.sans
                                                     case None => None
                                                     case Some(xs) => Some(JArray(Strings(xs))))
  {
    if v.None? || !v.value.JObject? then Failure(ShapeMismatch)
    else
      var main :- DecodeString(Get(v.value, "main"));
      var sans :- DecodeSans(Get(v.value, "sans"));
      Success(Domain(main, sans))
  }

  function DecodeCertificate(v: Option<Json>): (r: Result<Certificate, DecodeError>)
    ensures r.Success? <==> v.Some? && IsCertificate(v.value)
    ensures r.Success? ==> CertificateAgrees(r.value, v.value)
  {
    if v.None? || !v.value.JObject? then Failure(ShapeMismatch)
    else
      var domain :- DecodeDomain(Get(v.value, "domain"));
      var certificate :- DecodeString(Get(v.value, "certificate"));
      var key :- DecodeString(Get(v.value, "key"));
      var store :- DecodeString(Get(v.value, "Store"));
      Success(Certificate(domain, certificate, key, store))
  }

  function DecodeCertificates(items: seq<Json>): (r: Result<seq<Certificate>, DecodeError>)
    ensures r.Success? <==> forall i :: 0 <= i < |items| ==> IsCertificate(items[i])
    ensures r.Success? ==> CertificatesAgree(r.value, items)
  {
    if |items| == 0 then Success([])
    else
      var head :- DecodeCertificate(Some(items[0]));
      var tail :- DecodeCertificates(items[1..]);
      assert forall i :: 1 <= i < |items| ==> items[i] == items[1..][i - 1];
      Success([head] + tail)
  }

  /** `array(certificate)` */
  function DecodeCertificateArray(v: Option<Json>): (r: Result<seq<Certificate>, DecodeError>)
    ensures r.Success? <==> v.Some? && IsCertificateArray(v.value)
    ensures r.Success? ==> v.value.JArray? && CertificatesAgree(r.value, v.value.items)
  {
    match v
    case Some(JArray(items)) => DecodeCertificates(items)
    case _ => Failure(ShapeMismatch)
  }

  function DecodeResolver(v: Option<Json>): (r: Result<Resolver, DecodeError>)
    ensures r.Success? <==> v.Some? && IsResolver(v.value)
    ensures r.Success? ==> ResolverAgrees(r.value, v.value)
  {
    if v.None? || !v.value.JObject? then Failure(ShapeMismatch)
    else
      var account :- DecodeAccount(Get(v.value, "Account"));
      var certificates :- DecodeCertificateArray(Get(v.value, "Certificates"));
      Success(Resolver(account, certificates))
  }

  function DecodeResolvers(fields: seq<(string, Json)>): (r: Result<seq<(string, Resolver)>, DecodeError>)
    ensures r.Success? <==> forall i :: 0 <= i < |fields| ==> IsResolver(fields[i].1)
    ensures r.Success? ==> ResolversAgree(r.value, fields)
  {
    if |fields| == 0 then Success([])
    else
      var head :- DecodeResolver(Some(fields[0].1));
      var tail :- DecodeResolvers(fields[1..]);
      ResolversAgreeCons(fields[0].0, head, tail, fields);
      Success([(fields[0].0, head)] + tail)
  }

  /**
    `guard(dict(resolver))`: the whole document becomes a typed store, resolver
    names and order kept, or it is rejected; there is no partial result.
  */
  function DecodeStore(j: Json): (r: Result<Store, DecodeError>)
    ensures r.Success? <==> IsStore(j)
    ensures r.Success? ==> ResolversAgree(r.value.resolvers, j.fields)
  {
    if !j.JObject? then Failure(ShapeMismatch)
    else
      var resolvers :- DecodeResolvers(j.fields);
      Success(Store(resolvers))
  }
}

=== FILE: json.dfy ===
/**
  An already-parsed JSON value. Objects keep their properties in order, so
  that "the first property" of an object has a meaning.
*/
module Json {
  import opened Wrappers

  datatype Json =
    | JNull
    | JBool(b: bool)
    | JNumber(literal: string)   // the numeric literal; the store shape never accepts a number
    | JString(str: string)
    | JArray(items: seq<Json>)
    | JObject(fields: seq<(string, Json)>)

  /** The first binding of `key` in a property list; `None` when the key is absent. */
  function Lookup(fields: seq<(string, Json)>, key: string): Option<Json>
  {
    if |fields| == 0 then None
    else if fields[0].0 == key then Some(fields[0].1)
    else Lookup(fields[1..], key)
  }

  /**
    Lookup finds the value of the first property named `key`, and misses
    exactly when no property has that name.
  */
  lemma {:induction false} LookupFindsFirst(fields: seq<(string, Json)>, key: string)
    ensures Lookup(fields, key).None? <==> forall i :: 0 <= i < |fields| ==> fields[i].0 != key
    ensures Lookup(fields, key).Some? ==>
              exists i :: && 0 <= i < |fields| && fields[i] == (key, Lookup(fields, key).value)
                          && forall k :: 0 <= k < i ==> fields[k].0 != key
  {
    if |fields| > 0 && fields[0].0 != key {
      LookupFindsFirst(fields[1..], key);
      assert forall i :: 1 <= i < |fields| ==> fields[i] == fields[1..][i - 1];
      if Lookup(fields, key).Some? {
        var i :| && 0 <= i < |fields[1..]| && fields[1..][i] == (key, Lookup(fields, key).value)
                 && forall k :: 0 <= k < i ==> fields[1..][k].0 != key;
        assert fields[i + 1] == (key, Lookup(fields, key).value);
        assert forall k :: 0 <= k < i + 1 ==> fields[k].0 != key;
      }
    }
  }

  /** The property at position `i`, when no earlier property has its name, is the one Lookup finds. */
  lemma LookupAt(fields: seq<(string, Json)>, key: string, i: nat)
    requires i < |fields| && fields[i].0 == key
    requires forall k :: 0 <= k < i ==> fields[k].0 != key
    ensures Lookup(fields, key) == Some(fields[i].1)
  {
    LookupFindsFirst(fields, key);
    var i' :| && 0 <= i' < |fields| && fields[i'] == (key, Lookup(fields, key).value)
              && forall k :: 0 <= k < i' ==> fields[k].0 != key;
    assert i' == i;
  }

  /** Property access `j[key]`: `None` (JavaScript's `undefined`) for a missing key or a non-object. */
  function Get(j: Json, key: string): Option<Json>
  {
    if j.JObject? then Lookup(j.fields, key) else None
  }

  /** Property access along a path, `j[p0][p1]...`; `None` as soon as a step is missing. */
  function At(j: Json, path: seq<string>): Option<Json>
    decreases |path|
  {
    if |path| == 0 then Some(j)
    else
      match Get(j, path[0])
      case None => None
      case Some(v) => At(v, path[1..])
  }

  /** A JSON array of strings, element by element. */
  function Strings(xs: seq<string>): (items: seq<Json>)
    ensures |items| == |xs|
    ensures forall i :: 0 <= i < |xs| ==> items[i] == JString(xs[i])
  {
    seq(|xs|, i requires 0 <= i < |xs| => JString(xs[i]))
  }
}

=== FILE: loader.dfy ===
/**
  Loading the validated store: reading and parsing the file is outside the
  model, which starts from the outcome of that step.
*/
module Loader {
  import opened Wrappers
  import opened Json
  import opened StoreModel
  import opened Decoders

  /** A read or parse failure, re-thrown with a fixed prefix, or a validation failure. */
  datatype LoadError = ReadOrParseError(message: string) | ValidationError(error: DecodeError)

  const ReadOrParsePrefix: string := "Error reading/parsing acme json store: "

  /**
    `parsed` is the outcome of reading the file and parsing it as JSON: the
    value, or the text of the error raised.
  */
  function LoadStore(parsed: Result<Json, string>): (r: Result<Store, LoadError>)
    ensures parsed.Failure? ==> r == Failure(ReadOrParseError(ReadOrParsePrefix + parsed.error))
    ensures parsed.Success? ==> (r.Success? <==> IsStore(parsed.value))
    ensures parsed.Success? && r.Failure? ==> r.error.ValidationError?
    ensures r.Success? ==> parsed.Success? && DecodeStore(parsed.value) == Success(r.value)
  {
    match parsed
    case Failure(e) => Failure(ReadOrParseError(ReadOrParsePrefix + e))
    case Success(j) =>
      match DecodeStore(j)
      case Failure(e) => Failure(ValidationError(e))
      case Success(s) => Success(s)
  }
}

=== FILE: octets.dfy ===
/** Byte sequences, the intermediate form between base64 text and UTF-8 text. */
module Octets {

  /** One octet, kept as a bounded integer so that arithmetic on it needs no conversions. */
  type Byte = b: int | 0 <= b < 256
}

=== FILE: store_model.dfy ===
/** The typed ACME store: resolvers, their account and their certificate entries. */
module StoreModel {
  import opened Wrappers

  datatype RegistrationBody = RegistrationBody(status: string, contact: seq<string>)

  datatype Registration = Registration(body: RegistrationBody, uri: string)

  /** The ACME account of a resolver; carried through validation, never read afterwards. */
  datatype Account = Account(email: string, registration: Registration, privateKey: string, keyType: string)

  /** The identity of a certificate: its primary domain and optional subject alternative names. */
  datatype Domain = Domain(main: string, sans: Option<seq<string>>)

  /**
    One certificate entry: `certificate` and `key` hold base64 text of the PEM
    chain and of the private key; `store` is the entry's `Store` tag.
  */
  datatype Certificate = Certificate(domain: Domain, certificate: string, key: string, store: string)

  datatype Resolver = Resolver(account: Account, certificates: seq<Certificate>)

  /** Resolver name to resolver record, in the property order of the document. */
  datatype Store = Store(resolvers: seq<(string, Resolver)>)
}

=== FILE: utf8.dfy ===
/**
  UTF-8 (section 3 of RFC 3629) between Unicode scalar values (Dafny's `char`)
  and bytes. The decoder is strict: it rejects overlong forms, encoded
  surrogates, values above U+10FFFF, stray continuation bytes and truncated
  sequences, so that it inverts the encoder in both directions.
*/
module Utf8 {
  import opened Wrappers
  import opened Octets

  /** A byte of the form 10xxxxxx, carrying six payload bits. */
  predicate IsContinuation(b: Byte) {
    0x80 <= b < 0xC0
  }

  /** The one to four bytes of a scalar value: the lead byte announces the length. */
  function EncodeScalar(c: char): (bs: seq<Byte>)
    ensures 1 <= |bs| <= 4
    ensures (|bs| == 1) == (c as int < 0x80)
  {
    var n := c as int;
    if n < 0x80 then [n]
    else if n < 0x800 then [0xC0 + n / 64, 0x80 + n % 64]
    else if n < 0x10000 then [0xE0 + n / 4096, 0x80 + n / 64 % 64, 0x80 + n % 64]
    else [0xF0 + n / 0x40000, 0x80 + n / 4096 % 64, 0x80 + n / 64 % 64, 0x80 + n % 64]
  }

  /** Encodes text scalar by scalar. */
  function Encode(s: string): seq<Byte>
  {
    if |s| == 0 then [] else EncodeScalar(s[0]) + Encode(s[1..])
  }

  /** Reads one scalar value from the front of `bs`; yields it and the number of bytes it used. */
  function DecodeScalar(bs: seq<Byte>): (r: Option<(char, nat)>)
    requires |bs| > 0
    ensures r.Some? ==> 1 <= r.value.1 <= |bs|
  {
    var b0: int := bs[0];
    if b0 < 0x80 then Some((b0 as char, 1))
    else if 0xC2 <= b0 < 0xE0 then
      if |bs| < 2 || !IsContinuation(bs[1]) then None
      else Some((((b0 - 0xC0) * 64 + (bs[1] as int - 0x80)) as char, 2))
    else if 0xE0 <= b0 < 0xF0 then
      if |bs| < 3 || !IsContinuation(bs[1]) || !IsContinuation(bs[2]) then None
      else
        var n := (b0 - 0xE0) * 4096 + (bs[1] as int - 0x80) * 64 + (bs[2] as int - 0x80);
        if n < 0x800 || 0xD800 <= n < 0xE000 then None else Some((n as char, 3))
    else if 0xF0 <= b0 < 0xF5 then
      if |bs| < 4 || !IsContinuation(bs[1]) || !IsContinuation(bs[2]) || !IsContinuation(bs[3]) then None
      else
        var n := (b0 - 0xF0) * 0x40000 + (bs[1] as int - 0x80) * 4096 + (bs[2] as int - 0x80) * 64 + (bs[3] as int - 0x80);
        if n < 0x10000 || 0x110000 <= n then None else Some((n as char, 4))
    else None
  }

  /** Strict decoding of a whole byte sequence; `None` on the first ill-formed sequence. */
  function Decode(bs: seq<Byte>): Option<string>
    decreases |bs|
  {
    if |bs| == 0 then Some([])
    else
      var first :- DecodeScalar(bs);
      var rest :- Decode(bs[first.1..]);
      Some([first.0] + rest)
  }

  /** A code point cut into a lead part and 6-bit parts, glued back, is the code point. */
  lemma CodePointSplits(n: int)
    requires 0 <= n
    ensures n / 64 * 64 + n % 64 == n
    ensures n / 4096 * 4096 + n / 64 % 64 * 64 + n % 64 == n
    ensures n / 0x40000 * 0x40000 + n / 4096 % 64 * 4096 + n / 64 % 64 * 64 + n % 64 == n
  {
    Regroup(n, 64, 4096);
    Regroup(n, 4096, 0x40000);
  }

  /**
    With `big == small * 64`, the quotient by `small` splits into the quotient
    by `big` and a 6-bit remainder.
  */
  lemma Regroup(n: int, small: int, big: int)
    requires 0 <= n && (small == 64 || small == 4096) && big == small * 64
    ensures n / small == n / big * 64 + n / small % 64
  {
    var q := n / small;
    assert n == q / 64 * big + (q % 64 * small + n % small);
  }

  /** The encoding of one scalar, followed by anything, decodes back to that scalar. */
  lemma ScalarRoundTrip(c: char, rest: seq<Byte>)
    ensures DecodeScalar(EncodeScalar(c) + rest) == Some((c, |EncodeScalar(c)|))
  {
    var n := c as int;
    var enc := EncodeScalar(c);
    var bs := enc + rest;
    CodePointSplits(n);
    if n < 0x80 {
      assert bs[0] == n;
    } else if n < 0x800 {
      assert bs[0] == 0xC0 + n / 64 && bs[1] == 0x80 + n % 64;
      assert DecodeScalar(bs) == Some((((n / 64) * 64 + n % 64) as char, 2));
    } else if n < 0x10000 {
      assert bs[0] == 0xE0 + n / 4096 && bs[1] == 0x80 + n / 64 % 64 && bs[2] == 0x80 + n % 64;
      assert DecodeScalar(bs) == Some((n as char, 3));
    } else {
      assert bs[0] == 0xF0 + n / 0x40000 && bs[1] == 0x80 + n / 4096 % 64;
      assert bs[2] == 0x80 + n / 64 % 64 && bs[3] == 0x80 + n % 64;
      assert DecodeScalar(bs) == Some((n as char, 4));
    }
  }

  lemma TwoByteFields(x: int, y: int)
    requires 0 <= x < 32 && 0 <= y < 64
    ensures (x * 64 + y) / 64 == x && (x * 64 + y) % 64 == y
  {
  }

  lemma ThreeByteFields(x: int, y: int, z: int)
    requires 0 <= x < 16 && 0 <= y < 64 && 0 <= z < 64
    ensures var n := x * 4096 + y * 64 + z;
            n / 4096 == x && n / 64 % 64 == y && n % 64 == z
  {
    var n := x * 4096 + y * 64 + z;
    assert n / 64 == x * 64 + y;
  }

  lemma FourByteFields(w: int, x: int, y: int, z: int)
    requires 0 <= w < 8 && 0 <= x < 64 && 0 <= y < 64 && 0 <= z < 64
    ensures var n := w * 0x40000 + x * 4096 + y * 64 + z;
            n / 0x40000 == w && n / 4096 % 64 == x && n / 64 % 64 == y && n % 64 == z
  {
    var n := w * 0x40000 + x * 4096 + y * 64 + z;
    assert n / 64 == w * 4096 + x * 64 + y;
    assert n / 4096 == w * 64 + x;
  }

  /** Bytes the decoder reads as one scalar are exactly that scalar's encoding. */
  lemma ScalarInverse(bs: seq<Byte>)
    requires |bs| > 0 && DecodeScalar(bs).Some?
    ensures var r := DecodeScalar(bs).value; EncodeScalar(r.0) == bs[..r.1]
  {
    var b0: int := bs[0];
    if b0 < 0x80 {
      assert bs[..1] == [bs[0]];
    } else if b0 < 0xE0 {
      TwoByteInverse(bs);
    } else if b0 < 0xF0 {
      ThreeByteInverse(bs);
    } else {
      FourByteInverse(bs);
    }
  }

  lemma TwoByteInverse(bs: seq<Byte>)
    requires |bs| > 0 && 0x80 <= bs[0] < 0xE0 && DecodeScalar(bs).Some?
    ensures |bs| >= 2 && DecodeScalar(bs).value.1 == 2 && EncodeScalar(DecodeScalar(bs).value.0) == bs[..2]
  {
    var x, y := bs[0] as int - 0xC0, bs[1] as int - 0x80;
    var n := x * 64 + y;
    TwoByteFields(x, y);
    assert DecodeScalar(bs) == Some((n as char, 2));
    assert EncodeScalar(n as char) == [0xC0 + x, 0x80 + y];
    assert bs[..2] == [bs[0], bs[1]];
  }

  lemma ThreeByteInverse(bs: seq<Byte>)
    requires |bs| > 0 && 0xE0 <= bs[0] < 0xF0 && DecodeScalar(bs).Some?
    ensures |bs| >= 3 && DecodeScalar(bs).value.1 == 3 && EncodeScalar(DecodeScalar(bs).value.0) == bs[..3]
  {
    var x, y, z := bs[0] as int - 0xE0, bs[1] as int - 0x80, bs[2] as int - 0x80;
    var n := x * 4096 + y * 64 + z;
    ThreeByteFields(x, y, z);
    assert DecodeScalar(bs) == Some((n as char, 3));
    assert EncodeScalar(n as char) == [0xE0 + x, 0x80 + y, 0x80 + z];
    assert bs[..3] == [bs[0], bs[1], bs[2]];
  }

  lemma FourByteInverse(bs: seq<Byte>)
    requires |bs| > 0 && 0xF0 <= bs[0] && DecodeScalar(bs).Some?
    ensures |bs| >= 4 && DecodeScalar(bs).value.1 == 4 && EncodeScalar(DecodeScalar(bs).value.0) == bs[..4]
  {
    var w, x, y, z := bs[0] as int - 0xF0, bs[1] as int - 0x80, bs[2] as int - 0x80, bs[3] as int - 0x80;
    var n := w * 0x40000 + x * 4096 + y * 64 + z;
    FourByteFields(w, x, y, z);
    assert DecodeScalar(bs) == Some((n as char, 4));
    assert EncodeScalar(n as char) == [0xF0 + w, 0x80 + x, 0x80 + y, 0x80 + z];
    assert bs[..4] == [bs[0], bs[1], bs[2], bs[3]];
  }

  /** Decoding undoes encoding: all text survives a UTF-8 round trip. */
  lemma {:induction false} DecodeEncode(s: string)
    ensures Decode(Encode(s)) == Some(s)
  {
    if |s| > 0 {
      var head := EncodeScalar(s[0]);
      ScalarRoundTrip(s[0], Encode(s[1..]));
      DecodeEncode(s[1..]);
      assert (head + Encode(s[1..]))[|head|..] == Encode(s[1..]);
      assert s == [s[0]] + s[1..];
    }
  }

  /** Non-empty bytes decode as one scalar followed by the decoding of what remains. */
  lemma DecodeFront(bs: seq<Byte>)
    requires |bs| > 0
    ensures Decode(bs) == (match DecodeScalar(bs)
                           case None => None
                           case Some(first) =>
                             match Decode(bs[first.1..])
                             case None => None
                             case Some(rest) => Some([first.0] + rest))
  {
  }

  /** Encoding undoes decoding: bytes the strict decoder accepts are the encoding of its result. */
  lemma {:induction false} EncodeDecode(bs: seq<Byte>, s: string)
    requires Decode(bs) == Some(s)
    ensures Encode(s) == bs
    decreases |bs|
  {
    if |bs| > 0 {
      var first := DecodeScalar(bs).value;
      var rest := Decode(bs[first.1..]).value;
      DecodeFront(bs);
      ScalarInverse(bs);
      EncodeDecode(bs[first.1..], rest);
      assert s == [first.0] + rest;
      EncodeInFront(bs, first.0, first.1, rest);
    }
  }

  /** A scalar whose bytes open `bs`, in front of text encoding to the remaining bytes, encodes to `bs`. */
  lemma EncodeInFront(bs: seq<Byte>, c: char, k: nat, rest: string)
    requires k <= |bs| && EncodeScalar(c) == bs[..k] && Encode(rest) == bs[k..]
    ensures Encode([c] + rest) == bs
  {
    EncodeCons(c, rest);
    assert bs[..k] + bs[k..] == bs;
  }

  /** Encoding text with one more scalar in front puts that scalar's bytes in front. */
  lemma EncodeCons(c: char, rest: string)
    ensures Encode([c] + rest) == EncodeScalar(c) + Encode(rest)
  {
    assert ([c] + rest)[1..] == rest;
  }

  /** The strict decoder accepts exactly the encodings of text, and inverts them. */
  lemma DecodeIffEncode(bs: seq<Byte>, s: string)
    ensures Decode(bs) == Some(s) <==> Encode(s) == bs
  {
    if Decode(bs) == Some(s) {
      EncodeDecode(bs, s);
    }
    if Encode(s) == bs {
      DecodeEncode(s);
    }
  }

  /** ASCII text is its own encoding: one byte per character, equal to its code. */
  lemma {:induction false} AsciiEncoding(s: string)
    requires forall i :: 0 <= i < |s| ==> s[i] as int < 0x80
    ensures |Encode(s)| == |s|
    ensures forall i :: 0 <= i < |s| ==> Encode(s)[i] == s[i] as int
  {
    if |s| > 0 {
      AsciiEncoding(s[1..]);
      assert Encode(s) == [s[0] as int] + Encode(s[1..]);
    }
  }
}

=== FILE: wrappers.dfy ===
/**
  The two carriers of partial results used throughout the model. Both support
  `:-`, which stops at the first absent value or failure and passes it on.
*/
module Wrappers {

  /** A value that may be missing: an absent JSON property, a lookup that found nothing, input that does not decode. */
  datatype Option<+T> = None | Some(value: T) {

    predicate IsFailure() { None? }

    function PropagateFailure<U>(): Option<U>
      requires IsFailure()
    {
      None
    }

    function Extract(): T
      requires !IsFailure()
    {
      value
    }

    /** The present value, else `fallback`: JavaScript's `x || fallback` on an optional array. */
    function GetOr(fallback: T): T {
      if Some? then value else fallback
    }
  }

  /** A computed value or the reason it could not be computed; it stands for a thrown error. */
  datatype Result<+R, +E> = Success(value: R) | Failure(error: E) {

    predicate IsFailure() { Failure? }

    function PropagateFailure<U>(): Result<U, E>
      requires IsFailure()
    {
      Failure(error)
    }

    function Extract(): R
      requires !IsFailure()
    {
      value
    }
  }
}
